=== FILE: README.md ===
# Image puzzle engine, modelled in Dafny

This project models the puzzle engine of a browser jigsaw game. The engine
appears twice, in `script.js` and in `game.js`. It:

- picks a near-square `rows x cols` grid for the chosen number of pieces;
- builds one piece per grid cell, in row-major order, each with a target
  offset on the board;
- snaps a dropped piece onto its target when its centre lands within 35% of
  the larger tile side;
- keeps `placedCount` and the clock;
- declares the win when every piece is placed.

`game.js` also turns thumbnail file names into image addresses
(`normalizeFilePath`).

The model uses immutable datatypes and pure transition functions, one module
per part:

- `Grid` (`grid.dfy`): both `factorPair` algorithms. The tile size is
  `pieceW = floor(boardSize / cols)` and `pieceH = floor(boardSize / rows)`.
- `Tiles` (`tiles.dfy`): the `Tile` record, `buildPieces` in both forms, and
  the geometry of the target cells.
- `Snap` (`snap.dfy`): the snap test. It is written exactly in integers as
  `400 * (dx*dx + dy*dy) <= 49 * max(pieceW, pieceH)^2` and proved equal to
  the `Math.hypot` comparison on real numbers.
- `Engine` (`engine.dfy`): the `Session` record and one transition per event:
  - start and reset;
  - `pointerdown` and `pointerup` in both scripts' versions;
  - scatter (`shuffleUnplaced`);
  - the clock (`startTimer`, `startTimerIfNeeded`, `stopTimer`, one interval
    tick);
  - `checkWin` in both versions.
- `FilePath` (`filepath.dfy`): `normalizeFilePath`.
- `Arith` (`arith.dfy`) and `Wrappers` (`wrappers.dfy`): arithmetic facts and
  an `Option` type.

Some behaviours of the two scripts worth knowing:

- Placed pieces are not locked in either script. A placed piece can be dragged
  again. If it is dropped away from its target, it keeps `placed == true` and
  still counts in `placedCount`, but it no longer sits on its target.
  `Engine.Drop` states this in its non-snap clause. So `placedCount` equals the
  number of pieces whose flag is set (`Engine.Valid`). It does not equal the
  number of pieces resting on their targets.
- The win check runs after every snapping drop, not once per session.
  Re-dropping a placed piece on its target after the win reports the win
  again.
- Neither script rejects a non-positive piece count:
  - `game.js` maps a zero level to 50 (`Number(v) || 50`);
  - `script.js` divides by the resulting column count.
- When a count has no divisor other than 1, the grid is `1 x n`. Both scripts
  find a divisor for every positive count, so game.js's approximate fallback
  `[r, ceil(n / r)]` never runs (`Grid.GameFactorPairBest`).
- Neither script.js's `resetGame` nor game.js's `resetGameState` resets
  `seconds`, so a game.js game starts with the reading from the previous
  game until the clock starts again. script.js's `resetToGameState`, which
  its `startGame` calls, does set `seconds` to 0.
- In game.js the clock starts on `pointerdown`. In script.js it starts after
  the first `pointerup`, and `startTimer` restarts it from 0.
- After a win, game.js's next `pointerdown` restarts the clock.

Where script.js declares a function twice, the later declaration wins by
hoisting. The model uses that one: `factorPair` at 510-519, `startGame` at
455-471, and `startTimer`/`stopTimer` at 411-412.

## Model

| member | source | states |
|---|---|---|
| Grid.ISqrt | game.js:61 | `Math.floor(Math.sqrt(n))` is the `s` with `s*s <= n < (s+1)*(s+1)` |
| Grid.CeilDiv | game.js:65-66 | the fallback's `Math.ceil(n / r)` is the least `q` with `q*r >= n` |
| Grid.ScanUp | script.js:510-519 | the upward scan, started from its invariant, ends on the largest divisor whose square is at most `n` |
| Grid.ScriptFactorPair | script.js:510-519 | a count below 1 skips the loop and yields `[1, n]` |
| Grid.ScriptFactorPairBest | script.js:510-519 | for `n >= 1` script.js returns the exact factorisation whose `rows` is the largest divisor `r` with `r*r <= n` |
| Grid.ScanDownSome | game.js:61-63 | the downward loop finds a divisor for every start point `>= 1`; with `Grid.ScanDown` it is the largest divisor at or below the start point |
| Grid.ScanDown | game.js:61-63 | a returned `r` lies between 1 and the start point and divides `n`, and no larger value up to the start point divides `n` |
| Grid.GameFactorPair | game.js:59-67 | a grid exists exactly for `n >= 1`; it has at least one row and at least `n` cells |
| Grid.GameFactorPairBest | game.js:59-67 | for `n >= 1` the loop always returns (the fallback is unreachable), with the same intended grid |
| Grid.BestPairUnique | script.js:52 | the intended grid of a count is unique |
| Grid.FactorPairsAgree | game.js:59-67 | the two `factorPair` functions return the same grid for every `n >= 1` |
| Grid.BestPairMinimal | script.js:52-62 | the chosen grid has `rows <= cols` and the smallest `cols - rows` of all factorisations `a*b == n` with `a <= b` |
| Grid.OfferedCounts | script.js:4 | the levels 30, 50 and 80 get grids 5x6, 5x10 and 8x10 from both functions |
| Grid.PieceSize | script.js:458-464 | `pieceW*cols <= boardSize < (pieceW+1)*cols`, and the same for `pieceH` and rows: the largest tiles that fit |
| Tiles.Target | script.js:238-239 | the target offset is non-negative and leads back to its cell: `left / pieceW == c` and `top / pieceH == r` |
| Tiles.PieceLimit | game.js:224-225 | never more pieces than slots; a zero limit means every slot; otherwise the smaller of the limit and the slots |
| Tiles.BuildRow | game.js:230-264 | the inner loop with `break` yields the cells of row `r` from column `c` on, in order, each a fresh piece of its cell, stopping at the row end or at index `total`, whichever comes first |
| Tiles.BuildRows | game.js:229-265 | the nested loops yield exactly the cells with row-major indices from `r*cols` up to `min(total, rows*cols)`, in order; each piece has its cell, its target and `placed == false` |
| Tiles.ScriptBuildPieces | script.js:201-250 | exactly `rows*cols` pieces. Piece `i` has `idx == i == r*cols + c`, target `(c*pieceW, r*pieceH)`, no offset yet and `placed == false` |
| Tiles.GameBuildPieces | game.js:223-269 | exactly `min(limit or rows*cols, rows*cols)` pieces in row-major order, each on its own target and unplaced |
| Tiles.GameBuildCount | game.js:224-225 | with `1 <= limit <= rows*cols` exactly `limit` pieces are built |
| Tiles.TargetsTileBoard | script.js:237-239 | each point of the `pieceW*cols x pieceH*rows` board lies in the target rectangle of exactly one cell of the grid |
| Tiles.CellInsideBoard | script.js:462-464 | every cell's target rectangle lies inside the resized board |
| Snap.WithinReach | game.js:351-354 | an offset within reach is within 35% of the larger side along each axis on its own; a zero offset is within reach |
| Snap.Snaps | script.js:371-374 | a drop that snaps lies within 35% of `max(pieceW, pieceH)` of its target along each axis |
| Snap.CentreOffset | game.js:349-350 | the centre-to-centre offset equals the offset of the top-left corners (the half sizes cancel) |
| Snap.HypotTest | game.js:349-354 | `hypot <= max(pieceW, pieceH) * 0.35` (boundary included) holds exactly when the integer snap test does |
| Snap.DropOnTargetSnaps | script.js:371-374 | a drop exactly on the target always snaps |
| Snap.SnapsTranslationInvariant | script.js:364-371 | the decision depends only on the offset from the target, so script.js's wrapper-relative frame gives the same answer |
| Engine.CountPlaced | script.js:383-385 | the count of placed pieces never exceeds the number of pieces |
| Engine.Find | game.js:361 | `pieces.find` returns the first piece with the index, or nothing when no piece has it |
| Engine.FindOwnIndex | script.js:381-382 | in a valid session the lookup by index finds the dropped piece itself |
| Engine.ScriptStart | script.js:444-471 | a fresh valid session at the chosen level: `rows*cols == pieceCount` pieces, none placed, count 0, clock stopped at 0; tiles of size `floor(boardSize / cols) x floor(boardSize / rows)` |
| Engine.GameStart | game.js:177-204 | a fresh valid session with `Number(level) or 50` pieces on their targets, none placed, clock stopped; tiles sized from the measured board side, or 560 |
| Engine.GameGrid | game.js:184-185 | for a positive count game.js's grid is an exact factorisation, with at least one row and one column |
| Engine.BoardSide | game.js:189 | an unmeasured board falls back to 560 pixels; a measured one is used as is |
| Engine.Reset | game.js:206-220 | the reset leaves no pieces, a zero count and a stopped clock; `seconds` keeps its value |
| Engine.StartTimerIfNeeded | game.js:375-384 | the clock runs afterwards; it restarts from 0 only if it was stopped; nothing else changes |
| Engine.StartTimer | script.js:411 | the clock runs from 0 whatever its state, so the next interval tick reads 1; nothing else changes |
| Engine.StopTimer | script.js:412 | the clock is stopped whatever its state, and no interval tick changes the session afterwards; nothing else changes |
| Engine.Tick | game.js:380-383 | the interval adds one second only while the clock runs |
| Engine.ScatterTiles | game.js:279-299 | placed pieces are skipped unchanged; each unplaced piece gets its drawn offset and tilt and stays unplaced |
| Engine.Shuffle | script.js:253-319 | placed pieces and `placedCount` are untouched; an unplaced piece gets exactly its drawn offset and tilt, and keeps its index, cell, target and flag |
| Engine.ShufflePreservesValid | game.js:279-301 | a scatter keeps the session valid and every `placed` flag unchanged |
| Engine.Drop | game.js:341-372 | snaps exactly when the snap test holds. A snap moves the piece onto its target and clears its tilt. A miss leaves it at the drop offset, with its flag untouched. No flag is ever cleared, and the count grows by at most one |
| Engine.DropPreservesValid | script.js:374-394 | `placedCount` stays the number of placed pieces. The count grows by one exactly when an unplaced piece snaps, and a re-drop never double-counts. Other pieces are unchanged |
| Engine.ScriptCheckWin | script.js:401-408 | the win is reported exactly when `placedCount == pieces.length`, with the chosen level; it stops the clock |
| Engine.GameCheckWin | game.js:392-403 | the win is reported exactly when `placedCount >= pieces.length`, with `pieces.length`; it stops the clock |
| Engine.CountPlacedFull | game.js:393 | `placedCount` reaches the number of pieces exactly when every piece is placed |
| Engine.CheckWinsAgree | script.js:402 | in a valid session both win checks fire exactly when every piece is placed |
| Engine.StoppedClockStays | game.js:385-389 | after the win check has fired, an interval tick no longer changes `seconds` |
| Engine.StartTimerIdempotent | game.js:375-376 | touching again while the clock runs changes nothing |
| Engine.GamePointerDown | game.js:308-322 | a touch starts a stopped clock from 0 (game.js:378) and leaves a running one's reading alone. Nothing else changes: pieces, count, level, grid and tile size. The session stays valid |
| Engine.GamePointerUp | game.js:332-338 | the session is the drop's result, with the clock stopped after a win. The win is reported exactly when the drop snaps and the count then reaches `pieces.length`, with the time before the drop and the number of pieces. The session stays valid |
| Engine.ScriptPointerDown | script.js:327-341 | a touch clears the piece's tilt, changes nothing else, and keeps the session valid |
| Engine.ScriptPointerUpAsWritten | script.js:352-397 | as written: pieces and count are the drop's, and level, grid and tile size are unchanged. The win is reported exactly when the drop snaps and the count then equals `pieces.length`, with the time before the drop and the chosen level. On a drop that does not win, a running clock keeps its reading and a stopped one starts from 0 (`if(!timerStarted) startTimer()`). The clock runs after every drop, the winning one included. The session stays valid |
| Engine.ScriptWinRestartsClock | script.js:390-396 | as written, the winning drop leaves the clock running from 0, so the next tick counts 1 |
| Engine.ScriptWinRestartsClockExample | script.js:390-396 | a one-piece game dropped on target reports the win, with the clock still running |
| Engine.ScriptPointerUp | script.js:352-397 | corrected handler: pieces and count are the drop's, and level, grid and tile size are unchanged. A running clock keeps its reading, and a stopped one starts from 0 before the win check. The win is reported exactly when the drop snaps and the count then equals `pieces.length`, with the clock's reading and the chosen level, and stops the clock. Any other drop leaves it running. The session stays valid |
| Engine.ScriptWinStopsClock | script.js:390-396 | corrected handler: after the winning drop the clock is stopped, and a tick does not move it |
| Engine.GamePlaceFromWins | game.js:341-403 | dropping the remaining pieces on their targets in order places all of them. The last drop reports the win with the full count and stops the clock |
| Engine.FiftyPieceGame | game.js:184-200 | a 50-piece game (also a zero level) is a 5x10 grid of 50 pieces. Placing them all wins with 50 pieces and the clock stopped |
| FilePath.Normalize | game.js:93-99 | `null` and `""` give nothing. Addresses (`http://`, `https://`, `/`) and `images/` paths are kept. Anything else gets the `images/` prefix |
| FilePath.NormalizeIdempotent | game.js:93-99 | normalising twice gives the same result as normalising once |
| FilePath.NormalizeExamples | game.js:93-99 | concrete cases: a bare name gains the prefix; addresses and folder paths are kept; empty and missing give nothing |

## Left out

- DOM lookup, listener wiring, the screens, the win modal and `alert` are left out. They are UI plumbing with no state the engine keeps.
- The ghost-canvas image and the CSS crop of each piece (`object-position`, `transform`) are left out. They are presentation only, so tiles carry no crop rectangle.
- Scatter coordinates are left out: they come from `Math.random` and the window geometry. `Engine.Shuffle` takes them as a parameter. Nothing is claimed about staying inside the viewport, because game.js does not clamp.
- Image loading, `setTimeout` and `setInterval` are left out. Each start transition assumes the image has loaded. The first scatter is the caller's `Engine.Shuffle`, and each interval firing is an `Engine.Tick`.
- Two start-up races are left out.
  - script.js registers two `playBtn` click listeners. The first (script.js:74-77) calls `startGame()` with the previous `rows` and `cols` (0 and 0 on the first Play), before the second (script.js:427-433) runs `startGameSequence()`. The model starts a game once, from `startGameSequence`.
  - The first scatter is a `setTimeout` (script.js:470, game.js:203). It can fire before `img.onload` has built any pieces. In that case game.js's pieces stay on their targets (game.js:256-257). The model applies `Engine.Shuffle` to the built pieces.
- Pointer moves are left out. `Engine.Drop` takes the offset at which the piece was released.
- Floating point is left out. Offsets and the board side are integers. `Math.hypot` and `0.35` are replaced by an exact test, and `r <= Math.sqrt(n)` by `r*r <= n`. script.js's `parseInt` truncation of fractional offsets is not modelled.
- Engine.ScriptStart: requires a count of at least 1. For `n <= 0` script.js divides the board by a zero or negative column count, and the levels offered are 30, 50 and 80.
- Engine.GameStart: requires a level of at least 0. In game.js a non-numeric level becomes 50 (`Number(v)` is NaN and `NaN || 50` is 50, game.js:113), which the model covers as level 0. A negative level makes `Math.sqrt` return NaN, so `factorPair` returns `[NaN, NaN]` (game.js:61-66); the model does not represent NaN grids.
- Pieces from an earlier game.js game keep their `document` listeners but are off the page: they live in `board` (game.js:258), which `resetGameState` empties (game.js:210). They cannot start a drag, and the model leaves them out.
- Stale script.js pieces are left out. `shuffleUnplaced` moves each unplaced piece into `boardWrap` (script.js:293), and neither `resetGame` nor `resetToGameState` empties `boardWrap`. After Replay, a piece from the previous game can still be dragged. When it snaps, the lookup by index (script.js:382) marks the new game's piece with that index as placed and counts it, although that piece is not on its target, and `checkWin` may report a win. A session here holds only the current game's pieces, so this path is not modelled.
- Duplicate declarations are left out. script.js's two `let selectedFile`, and game.js's `const $` next to `function $`, would stop the files from loading; they play no part in the engine.

## Findings

| source | as written | input that shows it | evidently intended | confidence | as-written member | corrected member |
|---|---|---|---|---|---|---|
| script.js:390-396 | After a snapping drop, `checkWin` stops the clock and sets `timerStarted = false`. The next line, `if(!timerStarted) startTimer()`, then restarts the clock from 0, so it keeps counting behind the win message | the last piece of any game dropped on its target, e.g. a one-piece game (`Engine.ScriptWinRestartsClockExample`) | the clock stays stopped once the game is won | not executed; high | Engine.ScriptPointerUpAsWritten | Engine.ScriptPointerUp |

=== FILE: arith.dfy ===
/** Small facts about integer multiplication and division that the grid
    and tile proofs lean on. */
module Arith {

  lemma DivExact(n: int, r: int)
    requires r >= 1 && n % r == 0
    ensures r * (n / r) == n
  {
  }

  lemma SquareMono(a: int, b: int)
    requires 0 <= a <= b
    ensures a * a <= b * b
  {
    assert a * a <= a * b <= b * b;
  }

  /** Among two factorisations of the same number, more rows means fewer columns. */
  lemma FewerColumns(r1: int, c1: int, r2: int, c2: int)
    requires 1 <= r1 < r2 && r1 * c1 == r2 * c2 && r1 * c1 >= 1
    ensures c2 < c1
  {
  }

  lemma Cancel(a: int, b: int, c: int)
    requires a >= 1 && a * b == a * c
    ensures b == c
  {
  }

  lemma MulMono(a: int, b: int, c: int)
    requires 0 <= a <= b && 0 <= c
    ensures a * c <= b * c
  {
  }

  lemma MulLeCancel(a: int, x: int, y: int)
    requires a >= 1 && a * x <= a * y
    ensures x <= y
  {
  }

  lemma DivOfProduct(a: int, b: int)
    requires a >= 1
    ensures (a * b) % a == 0
  {
    DivBand(a * b, a, b);
  }

  /** Dividing a multiple of `w` by `w` recovers the multiplier. */
  lemma DivOfMultiple(c: nat, w: nat)
    ensures c * w >= 0
    ensures w >= 1 ==> (c * w) / w == c
  {
    if w >= 1 {
      DivBand(c * w, w, c);
    }
  }

  lemma MulLtCancel(a: int, x: int, y: int)
    requires a >= 1 && x * a < y * a
    ensures x < y
  {
  }

  /** `x` lies in the `c`-th band of width `w` exactly when `x / w == c`. */
  lemma DivBand(x: int, w: int, c: int)
    requires w >= 1
    ensures c * w <= x < c * w + w <==> x / w == c
  {
    var q := x / w;
    var m := x % w;
    assert x == q * w + m && 0 <= m < w;
    if c * w <= x < c * w + w {
      assert (c - q) * w <= m;
      assert (c - q) * w < 1 * w;
      MulLtCancel(w, c - q, 1);
      assert (q - c) * w < w - m;
      assert (q - c) * w < 1 * w;
      MulLtCancel(w, q - c, 1);
    }
    if q == c {
      assert c * w <= x < c * w + w;
    }
  }
}

=== FILE: engine.dfy ===
/** The game session: the pieces of the current puzzle, how many are
    placed, and the clock, with one pure transition per event the two
    scripts handle. Events that only the DOM sees (pointer moves, screen
    changes) are not transitions here; a drop is given the offset at which
    the piece was released. */
module Engine {
  import opened Wrappers
  import opened Grid
  import opened Tiles
  import opened Snap

  /** The module-level state both scripts keep. `pieceCount` is the level
      the player chose; `seconds` is the clock reading. */
  datatype Session = Session(
    pieceCount: int,
    dims: Dims,
    size: Size,
    tiles: seq<Tile>,
    placedCount: nat,
    timerRunning: bool,
    seconds: nat)

  /** What the win message shows: the time and the number of pieces. */
  datatype WinReport = WinReport(seconds: nat, pieces: int)

  /** A session after an event, and the win message if the event won. */
  datatype Step = Step(session: Session, win: Option<WinReport>)

  /** The outcome of a drop: the new session and whether the piece snapped. */
  datatype Dropped = Dropped(session: Session, snapped: bool)

  /** A new offset and tilt for one piece, as a scatter draws them. */
  datatype Scatter = Scatter(pos: Pos, rotation: real)

  // ---------------------------------------------------------------------
  // Counting and lookup
  // ---------------------------------------------------------------------

  /** The number of pieces whose `placed` flag is set. */
  function CountPlaced(tiles: seq<Tile>): (n: nat)
    ensures n <= |tiles|
  {
    if |tiles| == 0 then 0
    else (if tiles[0].placed then 1 else 0) + CountPlaced(tiles[1..])
  }

  /** `pieces.find(x => x.idx === idx)`: the position of the first piece
      with index `idx`, if any. */
  function Find(tiles: seq<Tile>, idx: int): (j: Option<nat>)
    ensures j.Some? ==>
      && j.value < |tiles| && tiles[j.value].idx == idx
      && forall i :: 0 <= i < j.value ==> tiles[i].idx != idx
    ensures j.None? ==> forall i :: 0 <= i < |tiles| ==> tiles[i].idx != idx
  {
    if |tiles| == 0 then None
    else if tiles[0].idx == idx then Some(0)
    else match Find(tiles[1..], idx)
      case Some(j) => Some(j + 1)
      case None => None
  }

  /** The session invariant: the pieces are listed by index, each sits in
      its own grid cell, and `placedCount` counts the placed pieces. */
  predicate Valid(s: Session)
  {
    && (forall i :: 0 <= i < |s.tiles| ==> s.tiles[i].idx == i && Fits(s.dims, s.size, s.tiles[i]))
    && s.placedCount == CountPlaced(s.tiles)
  }

  predicate AllPlaced(tiles: seq<Tile>)
  {
    forall i :: 0 <= i < |tiles| ==> tiles[i].placed
  }

  // ---------------------------------------------------------------------
  // Starting and resetting
  // ---------------------------------------------------------------------

  /** script.js `startGameSequence` then `startGame`: the level picks the
      grid, the square board's side picks the tile size, the state is reset
      and every cell gets an unplaced piece with no offset yet. */
  function ScriptStart(pieceCount: int, boardSize: nat): (s: Session)
    requires pieceCount >= 1
    ensures Valid(s)
    ensures |s.tiles| == pieceCount && s.placedCount == 0
    ensures s.pieceCount == pieceCount && s.dims == ScriptFactorPair(pieceCount)
    ensures s.size == PieceSize(boardSize, s.dims)
    ensures !s.timerRunning && s.seconds == 0
    ensures forall i :: 0 <= i < |s.tiles| ==> Fresh(false, s.tiles[i])
  {
    var d := ScriptFactorPair(pieceCount);
    ScriptFactorPairBest(pieceCount);
    PositiveCofactor(d.rows, d.cols);
    var sz := PieceSize(boardSize, d);
    var tiles := ScriptBuildPieces(d, sz);
    NoPiecePlaced(tiles);
    Session(pieceCount, d, sz, tiles, 0, false, 0)
  }

  /** game.js `startGame`: `Number(level) || 50` picks the count (a zero
      level means 50), `Math.min(width, height) || 560` the board side, and
      `buildPieces(rows, cols, pieceCount)` lays every piece on its target.
      game.js does not reset `seconds`; the previous reading is kept. */
  function GameStart(level: int, measured: nat, carried: nat): (s: Session)
    requires level >= 0
    ensures Valid(s)
    ensures |s.tiles| == s.pieceCount && s.placedCount == 0
    ensures s.pieceCount == (if level == 0 then 50 else level)
    ensures GameFactorPair(s.pieceCount) == Some(s.dims)
    ensures s.size == PieceSize(BoardSide(measured), s.dims)
    ensures !s.timerRunning && s.seconds == carried
    ensures forall i :: 0 <= i < |s.tiles| ==> Fresh(true, s.tiles[i])
  {
    var n := if level == 0 then 50 else level;
    var boardSize := BoardSide(measured);
    var d := GameGrid(n);
    var sz := PieceSize(boardSize, d);
    var tiles := GameBuildPieces(d, sz, n);
    GameBuildCount(d, sz, n);
    NoPiecePlaced(tiles);
    var s := Session(n, d, sz, tiles, 0, false, carried);
    assert Valid(s);
    s
  }

  /** `Math.min(rect.width, rect.height) || 560`: an unmeasured (zero) board
      falls back to 560 pixels. */
  function BoardSide(measured: nat): (side: nat)
    ensures side >= 1
    ensures measured == 0 ==> side == 560
    ensures measured >= 1 ==> side == measured
  {
    if measured == 0 then 560 else measured
  }

  /** The grid game.js picks for a positive count. */
  function GameGrid(n: int): (d: Dims)
    requires n >= 1
    ensures GameFactorPair(n) == Some(d)
    ensures d.rows >= 1 && d.cols >= 1 && d.rows * d.cols == n
  {
    GameFactorPairBest(n);
    var d := GameFactorPair(n).value;
    PositiveCofactor(d.rows, d.cols);
    d
  }

  /** `resetGame` / `resetGameState`: stop the clock, drop all pieces and
      zero the placed count. Neither script zeroes `seconds` here. */
  function Reset(s: Session): (s': Session)
    ensures Valid(s') && |s'.tiles| == 0 && s'.placedCount == 0
    ensures !s'.timerRunning && s'.seconds == s.seconds
  {
    s.(tiles := [], placedCount := 0, timerRunning := false)
  }

  // ---------------------------------------------------------------------
  // Clock
  // ---------------------------------------------------------------------

  /** game.js `startTimerIfNeeded`: a running clock is left alone; a
      stopped one restarts from zero. */
  function StartTimerIfNeeded(s: Session): (s': Session)
    ensures s'.timerRunning
    ensures s'.seconds == (if s.timerRunning then s.seconds else 0)
    ensures s'.(timerRunning := s.timerRunning, seconds := s.seconds) == s
  {
    if s.timerRunning then s
    else s.(timerRunning := true, seconds := 0)
  }

  /** One firing of the one-second interval: it only exists while the clock runs. */
  function Tick(s: Session): (s': Session)
    ensures s'.seconds == (if s.timerRunning then s.seconds + 1 else s.seconds)
    ensures s'.(seconds := s.seconds) == s
  {
    if s.timerRunning then s.(seconds := s.seconds + 1) else s
  }

  /** script.js `startTimer` (the later, hoisted declaration): clears any
      interval and always restarts from zero, so the next tick reads 1. */
  function StartTimer(s: Session): (s': Session)
    ensures s'.timerRunning && s'.seconds == 0
    ensures Tick(s').seconds == 1
    ensures s'.(timerRunning := s.timerRunning, seconds := s.seconds) == s
  {
    s.(timerRunning := true, seconds := 0)
  }

  /** `stopTimer` in both scripts: the clock is stopped whatever its state,
      and no tick changes the session any more. */
  function StopTimer(s: Session): (s': Session)
    ensures !s'.timerRunning
    ensures Tick(s') == s'
    ensures s'.(timerRunning := s.timerRunning) == s
  {
    s.(timerRunning := false)
  }

  // ---------------------------------------------------------------------
  // Scatter
  // ---------------------------------------------------------------------

  /** One pass of `pieces.forEach` in `shuffleUnplaced`: a placed piece is
      skipped; an unplaced one gets the drawn offset and tilt. */
  function ScatterTiles(tiles: seq<Tile>, scatter: seq<Scatter>): (out: seq<Tile>)
    requires |scatter| == |tiles|
    ensures |out| == |tiles|
    ensures forall i :: 0 <= i < |tiles| && tiles[i].placed ==> out[i] == tiles[i]
    ensures forall i :: 0 <= i < |tiles| && !tiles[i].placed ==>
      out[i] == tiles[i].(pos := Some(scatter[i].pos), rotation := scatter[i].rotation)
  {
    if |tiles| == 0 then []
    else
      var t := tiles[0];
      var t' := if t.placed then t
        else t.(pos := Some(scatter[0].pos), rotation := scatter[0].rotation);
      [t'] + ScatterTiles(tiles[1..], scatter[1..])
  }

  /** `shuffleUnplaced`. The random offsets are a parameter; the scripts
      draw them from `Math.random` and the window geometry. */
  function Shuffle(s: Session, scatter: seq<Scatter>): (s': Session)
    requires |scatter| == |s.tiles|
    ensures |s'.tiles| == |s.tiles|
    ensures s'.(tiles := s.tiles) == s
    ensures forall i :: 0 <= i < |s.tiles| && s.tiles[i].placed ==> s'.tiles[i] == s.tiles[i]
    ensures forall i :: 0 <= i < |s.tiles| && !s.tiles[i].placed ==>
      s'.tiles[i] == s.tiles[i].(pos := Some(scatter[i].pos), rotation := scatter[i].rotation)
  {
    s.(tiles := ScatterTiles(s.tiles, scatter))
  }

  // ---------------------------------------------------------------------
  // Drop and snap
  // ---------------------------------------------------------------------

  /** The common part of script.js's `pointerup` handler and game.js's
      `snapIfClose` for the piece at position `k`, released at offset `p`.
      A snap moves it onto its target and clears its tilt (game.js sets
      `transform = 'none'` here; script.js already cleared it on
      `pointerdown`, so the tilt is 0 either way); the piece found
      by index is marked placed and counted, but only if it was not placed
      already. A miss leaves it where it was dropped and never touches its
      `placed` flag. */
  function Drop(s: Session, k: nat, p: Pos): (o: Dropped)
    requires k < |s.tiles|
    ensures |o.session.tiles| == |s.tiles|
    ensures o.session.(tiles := s.tiles, placedCount := s.placedCount) == s
    ensures o.snapped <==> Snaps(s.size, Target(s.tiles[k].row, s.tiles[k].col, s.size), p)
    ensures o.snapped ==>
      && o.session.tiles[k].pos == Some(Target(s.tiles[k].row, s.tiles[k].col, s.size))
      && o.session.tiles[k].rotation == 0.0
    ensures !o.snapped ==>
      o.session == s.(tiles := s.tiles[k := s.tiles[k].(pos := Some(p))])
    ensures forall i :: 0 <= i < |s.tiles| && s.tiles[i].placed ==> o.session.tiles[i].placed
    ensures o.session.placedCount == s.placedCount || o.session.placedCount == s.placedCount + 1
  {
    var t := s.tiles[k];
    var target := Target(t.row, t.col, s.size);
    if Snaps(s.size, target, p) then
      var tiles1 := s.tiles[k := t.(pos := Some(target), rotation := 0.0)];
      match Find(tiles1, t.idx)
      case Some(j) =>
        if !tiles1[j].placed then
          Dropped(s.(tiles := tiles1[j := tiles1[j].(placed := true)],
                     placedCount := s.placedCount + 1), true)
        else Dropped(s.(tiles := tiles1), true)
      case None => Dropped(s.(tiles := tiles1), true)
    else
      Dropped(s.(tiles := s.tiles[k := t.(pos := Some(p))]), false)
  }

  // ---------------------------------------------------------------------
  // Win check
  // ---------------------------------------------------------------------

  /** script.js `checkWin`: `placedCount === pieces.length` stops the clock
      and reports the time and the chosen level. */
  function ScriptCheckWin(s: Session): (st: Step)
    ensures st.win.Some? <==> s.placedCount == |s.tiles|
    ensures st.win.Some? ==>
      st.session == StopTimer(s) && st.win.value == WinReport(s.seconds, s.pieceCount)
    ensures st.win.None? ==> st.session == s
  {
    if s.placedCount == |s.tiles| then
      Step(StopTimer(s), Some(WinReport(s.seconds, s.pieceCount)))
    else Step(s, None)
  }

  /** game.js `checkWin`: `placedCount >= pieces.length` stops the clock
      and reports the time and the number of pieces. */
  function GameCheckWin(s: Session): (st: Step)
    ensures st.win.Some? <==> s.placedCount >= |s.tiles|
    ensures st.win.Some? ==>
      st.session == StopTimer(s) && st.win.value == WinReport(s.seconds, |s.tiles|)
    ensures st.win.None? ==> st.session == s
  {
    if s.placedCount >= |s.tiles| then
      Step(StopTimer(s), Some(WinReport(s.seconds, |s.tiles|)))
    else Step(s, None)
  }

  // ---------------------------------------------------------------------
  // Pointer events
  // ---------------------------------------------------------------------

  /** game.js `pointerdown`: the first touch of any piece starts the clock. */
  function GamePointerDown(s: Session): (s': Session)
    ensures s'.timerRunning && s'.tiles == s.tiles && s'.placedCount == s.placedCount
    ensures s.timerRunning ==> s'.seconds == s.seconds
    ensures !s.timerRunning ==> s'.seconds == 0
    ensures s'.(timerRunning := s.timerRunning, seconds := s.seconds) == s
    ensures Valid(s) ==> Valid(s')
  {
    StartTimerIfNeeded(s)
  }

  /** game.js `pointerup`: snap test, and the win check after a snap. */
  function GamePointerUp(s: Session, k: nat, p: Pos): (st: Step)
    requires k < |s.tiles|
    ensures |st.session.tiles| == |s.tiles|
    ensures st.win.Some? <==>
      Drop(s, k, p).snapped && Drop(s, k, p).session.placedCount >= |s.tiles|
    ensures st.win.Some? ==> !st.session.timerRunning && st.win.value.pieces == |s.tiles|
    ensures st.win.Some? ==> st.win.value.seconds == s.seconds
    ensures st.session ==
      (if st.win.Some? then StopTimer(Drop(s, k, p).session) else Drop(s, k, p).session)
    ensures Valid(s) ==> Valid(st.session)
  {
    DropKeepsValid(s, k, p);
    var o := Drop(s, k, p);
    if o.snapped then GameCheckWin(o.session) else Step(o.session, None)
  }

  /** script.js `pointerdown`: the piece loses its tilt (`transform = 'none'`). */
  function ScriptPointerDown(s: Session, k: nat): (s': Session)
    requires k < |s.tiles|
    ensures s'.tiles == s.tiles[k := s.tiles[k].(rotation := 0.0)]
    ensures s'.(tiles := s.tiles) == s
    ensures Valid(s) ==> Valid(s')
  {
    var tiles := s.tiles[k := s.tiles[k].(rotation := 0.0)];
    CountPlacedSameFlags(s.tiles, tiles);
    s.(tiles := tiles)
  }

  /** script.js `pointerup` as written: snap test, win check after a snap,
      and then `if (!timerStarted) startTimer()`. Because `checkWin` has just
      cleared `timerStarted`, a winning drop starts the clock again. */
  function ScriptPointerUpAsWritten(s: Session, k: nat, p: Pos): (st: Step)
    requires k < |s.tiles|
    ensures |st.session.tiles| == |s.tiles|
    ensures st.session.timerRunning
    ensures st.win.Some? <==>
      Drop(s, k, p).snapped && Drop(s, k, p).session.placedCount == |s.tiles|
    ensures s.timerRunning && st.win.None? ==> st.session.seconds == s.seconds
    ensures !s.timerRunning && st.win.None? ==> st.session.seconds == 0
    ensures st.win.Some? ==> st.win.value == WinReport(s.seconds, s.pieceCount)
    ensures st.session.(tiles := s.tiles, placedCount := s.placedCount,
                        timerRunning := s.timerRunning, seconds := s.seconds) == s
    ensures st.session.tiles == Drop(s, k, p).session.tiles
    ensures st.session.placedCount == Drop(s, k, p).session.placedCount
    ensures Valid(s) ==> Valid(st.session)
  {
    DropKeepsValid(s, k, p);
    var o := Drop(s, k, p);
    var w := if o.snapped then ScriptCheckWin(o.session) else Step(o.session, None);
    if !w.session.timerRunning then Step(StartTimer(w.session), w.win) else w
  }

  /** script.js `pointerup` with the clock started before the win check, so
      that the first drop still starts it and a winning drop leaves it stopped. */
  function ScriptPointerUp(s: Session, k: nat, p: Pos): (st: Step)
    requires k < |s.tiles|
    ensures |st.session.tiles| == |s.tiles|
    ensures st.win.Some? ==> !st.session.timerRunning && st.win.value.pieces == s.pieceCount
    ensures st.win.None? ==> st.session.timerRunning
    ensures st.win.Some? <==>
      Drop(s, k, p).snapped && Drop(s, k, p).session.placedCount == |s.tiles|
    ensures s.timerRunning ==> st.session.seconds == s.seconds
    ensures !s.timerRunning ==> st.session.seconds == 0
    ensures st.win.Some? ==>
      st.win.value == WinReport(if s.timerRunning then s.seconds else 0, s.pieceCount)
    ensures st.session.(tiles := s.tiles, placedCount := s.placedCount,
                        timerRunning := s.timerRunning, seconds := s.seconds) == s
    ensures st.session.tiles == Drop(s, k, p).session.tiles
    ensures st.session.placedCount == Drop(s, k, p).session.placedCount
    ensures Valid(s) ==> Valid(st.session)
  {
    DropKeepsValid(s, k, p);
    var o := Drop(s, k, p);
    var s1 := if !o.session.timerRunning then StartTimer(o.session) else o.session;
    if o.snapped then ScriptCheckWin(s1) else Step(s1, None)
  }

  // ---------------------------------------------------------------------
  // Lemmas
  // ---------------------------------------------------------------------

  lemma PositiveCofactor(r: int, c: int)
    requires r >= 1 && r * c >= 1
    ensures c >= 1
  {
  }

  lemma {:induction false} NoPiecePlaced(tiles: seq<Tile>)
    requires forall i :: 0 <= i < |tiles| ==> !tiles[i].placed
    ensures CountPlaced(tiles) == 0
  {
    if |tiles| > 0 {
      NoPiecePlaced(tiles[1..]);
    }
  }

  /** Replacing one piece changes the count by the change in its flag. */
  lemma {:induction false} CountPlacedUpdate(tiles: seq<Tile>, j: nat, t: Tile)
    requires j < |tiles|
    ensures CountPlaced(tiles[j := t]) + (if tiles[j].placed then 1 else 0)
         == CountPlaced(tiles) + (if t.placed then 1 else 0)
  {
    if j > 0 {
      assert tiles[j := t][1..] == tiles[1..][j - 1 := t];
      CountPlacedUpdate(tiles[1..], j - 1, t);
    } else {
      assert tiles[j := t][1..] == tiles[1..];
    }
  }

  /** Two lists with the same flags at every position have the same count. */
  lemma {:induction false} CountPlacedSameFlags(a: seq<Tile>, b: seq<Tile>)
    requires |a| == |b|
    requires forall i :: 0 <= i < |a| ==> a[i].placed == b[i].placed
    ensures CountPlaced(a) == CountPlaced(b)
  {
    if |a| > 0 {
      CountPlacedSameFlags(a[1..], b[1..]);
    }
  }

  /** Every piece is placed exactly when the count reaches the number of pieces. */
  lemma {:induction false} CountPlacedFull(tiles: seq<Tile>)
    ensures CountPlaced(tiles) == |tiles| <==> AllPlaced(tiles)
  {
    if |tiles| > 0 {
      CountPlacedFull(tiles[1..]);
      if AllPlaced(tiles) {
        assert AllPlaced(tiles[1..]);
      }
      if CountPlaced(tiles) == |tiles| {
        assert tiles[0].placed;
        forall i | 0 <= i < |tiles|
          ensures tiles[i].placed
        {
          if i > 0 { assert tiles[i] == tiles[1..][i - 1]; }
        }
      }
    }
  }

  /** In a valid session a piece is found by its own index at its own position. */
  lemma FindOwnIndex(tiles: seq<Tile>, k: nat)
    requires k < |tiles|
    requires forall i :: 0 <= i < |tiles| ==> tiles[i].idx == i
    ensures Find(tiles, k) == Some(k)
  {
    assert tiles[k].idx == k;
    var j := Find(tiles, k);
    assert j.Some?;
    assert tiles[j.value].idx == k;
  }

  /** A drop keeps the session valid. A snap of an unplaced piece places it
      and adds one to `placedCount`; a snap of a placed piece adds nothing. */
  lemma DropPreservesValid(s: Session, k: nat, p: Pos)
    requires Valid(s) && k < |s.tiles|
    ensures Valid(Drop(s, k, p).session)
    ensures Drop(s, k, p).snapped ==>
      && Drop(s, k, p).session.tiles[k].placed
      && Drop(s, k, p).session.placedCount
         == s.placedCount + (if s.tiles[k].placed then 0 else 1)
    ensures !Drop(s, k, p).snapped ==>
      Drop(s, k, p).session.tiles[k].placed == s.tiles[k].placed
      && Drop(s, k, p).session.placedCount == s.placedCount
    ensures forall j :: 0 <= j < |s.tiles| && j != k ==> Drop(s, k, p).session.tiles[j] == s.tiles[j]
  {
    var t := s.tiles[k];
    var target := Target(t.row, t.col, s.size);
    var o := Drop(s, k, p);
    if Snaps(s.size, target, p) {
      var t1 := t.(pos := Some(target), rotation := 0.0);
      var tiles1 := s.tiles[k := t1];
      FindOwnIndex(tiles1, k);
      CountPlacedUpdate(s.tiles, k, t1);
      if !t.placed {
        CountPlacedUpdate(tiles1, k, t1.(placed := true));
      }
    } else {
      CountPlacedUpdate(s.tiles, k, t.(pos := Some(p)));
    }
  }

  lemma DropKeepsValid(s: Session, k: nat, p: Pos)
    requires k < |s.tiles|
    ensures Valid(s) ==> Valid(Drop(s, k, p).session)
  {
    if Valid(s) {
      DropPreservesValid(s, k, p);
    }
  }

  /** A scatter keeps the session valid and leaves `placedCount` alone. */
  lemma ShufflePreservesValid(s: Session, scatter: seq<Scatter>)
    requires Valid(s) && |scatter| == |s.tiles|
    ensures Valid(Shuffle(s, scatter))
    ensures Shuffle(s, scatter).placedCount == s.placedCount
    ensures forall i :: 0 <= i < |s.tiles| ==> Shuffle(s, scatter).tiles[i].placed == s.tiles[i].placed
  {
    CountPlacedSameFlags(s.tiles, Shuffle(s, scatter).tiles);
  }

  /** In a valid session the two win checks agree, and both fire exactly
      when every piece is placed. */
  lemma CheckWinsAgree(s: Session)
    requires Valid(s)
    ensures ScriptCheckWin(s).win.Some? <==> AllPlaced(s.tiles)
    ensures GameCheckWin(s).win.Some? <==> AllPlaced(s.tiles)
  {
    CountPlacedFull(s.tiles);
  }

  /** Once the win check has stopped the clock, the interval adds nothing. */
  lemma StoppedClockStays(s: Session)
    requires GameCheckWin(s).win.Some?
    ensures Tick(GameCheckWin(s).session).seconds == s.seconds
  {
  }

  /** `startTimerIfNeeded` is idempotent: a second call changes nothing, so
      only the first touch of a session resets the clock. */
  lemma StartTimerIdempotent(s: Session)
    ensures StartTimerIfNeeded(StartTimerIfNeeded(s)) == StartTimerIfNeeded(s)
  {
  }

  /** The defect in script.js's `pointerup`: the drop that wins leaves the
      clock running again from zero. */
  lemma ScriptWinRestartsClock(s: Session, k: nat, p: Pos)
    requires k < |s.tiles|
    requires ScriptPointerUpAsWritten(s, k, p).win.Some?
    ensures ScriptPointerUpAsWritten(s, k, p).session.timerRunning
    ensures ScriptPointerUpAsWritten(s, k, p).session.seconds == 0
    ensures Tick(ScriptPointerUpAsWritten(s, k, p).session).seconds == 1
  {
  }

  /** A one-piece session whose piece lands on its target: the as-written
      handler reports the win and leaves the clock running. */
  lemma ScriptWinRestartsClockExample()
    ensures var t := Tile(0, 0, 0, Pos(0, 0), None, 0.0, false);
      var s := Session(1, Dims(1, 1), Size(10, 10), [t], 0, true, 7);
      var st := ScriptPointerUpAsWritten(s, 0, Pos(0, 0));
      st.win == Some(WinReport(7, 1)) && st.session.timerRunning && st.session.seconds == 0
  {
    var t := Tile(0, 0, 0, Pos(0, 0), None, 0.0, false);
    var s := Session(1, Dims(1, 1), Size(10, 10), [t], 0, true, 7);
    assert Snaps(s.size, Target(0, 0, s.size), Pos(0, 0));
    var t1 := t.(pos := Some(Pos(0, 0)), rotation := 0.0);
    assert Find([t1], 0) == Some(0);
    var o := Drop(s, 0, Pos(0, 0));
    assert o.snapped;
    assert o.session.placedCount == 1;
    assert o.session.tiles == [t1.(placed := true)];
    assert ScriptCheckWin(o.session).win == Some(WinReport(7, 1));
  }

  /** With the clock started before the win check, the winning drop stops
      it and no later tick moves it. */
  lemma ScriptWinStopsClock(s: Session, k: nat, p: Pos)
    requires k < |s.tiles|
    requires ScriptPointerUp(s, k, p).win.Some?
    ensures !ScriptPointerUp(s, k, p).session.timerRunning
    ensures Tick(ScriptPointerUp(s, k, p).session).seconds == ScriptPointerUp(s, k, p).session.seconds
  {
  }

  /** The player touches and then drops pieces `i, i+1, ...` in order, each
      exactly on its target (game.js handlers). The step of the last drop
      is returned. */
  function GamePlaceFrom(s: Session, i: nat): (st: Step)
    requires i <= |s.tiles|
    decreases |s.tiles| - i
  {
    if i == |s.tiles| then Step(s, None)
    else
      var s1 := GamePointerDown(s);
      var st1 := GamePointerUp(s1, i, s1.tiles[i].target);
      if i + 1 == |s.tiles| then st1 else GamePlaceFrom(st1.session, i + 1)
  }

  /** If exactly the pieces before `i` are placed, the placed count is `i`. */
  lemma {:induction false} CountPlacedPrefix(tiles: seq<Tile>, i: nat)
    requires i <= |tiles|
    requires forall j :: 0 <= j < |tiles| ==> (tiles[j].placed <==> j < i)
    ensures CountPlaced(tiles) == i
  {
    if |tiles| > 0 {
      if i == 0 {
        NoPiecePlaced(tiles);
      } else {
        CountPlacedPrefix(tiles[1..], i - 1);
      }
    }
  }

  /** Dropping the remaining pieces on their targets places every one of
      them, and the last drop reports the win with the full piece count
      and stops the clock. */
  lemma {:induction false} GamePlaceFromWins(s: Session, i: nat)
    requires Valid(s) && i < |s.tiles|
    requires forall j :: 0 <= j < |s.tiles| ==> (s.tiles[j].placed <==> j < i)
    ensures var st := GamePlaceFrom(s, i);
      && Valid(st.session) && AllPlaced(st.session.tiles)
      && st.session.placedCount == |s.tiles| && !st.session.timerRunning
      && st.win.Some? && st.win.value.pieces == |s.tiles|
    decreases |s.tiles| - i
  {
    var s1 := GamePointerDown(s);
    assert Valid(s1);
    var target := s1.tiles[i].target;
    assert target == Target(s1.tiles[i].row, s1.tiles[i].col, s1.size);
    DropOnTargetSnaps(s1.size, target);
    DropPreservesValid(s1, i, target);
    CountPlacedPrefix(s.tiles, i);
    var o := Drop(s1, i, target);
    assert o.snapped;
    assert forall j :: 0 <= j < |s.tiles| ==> (o.session.tiles[j].placed <==> j < i + 1);
    CountPlacedPrefix(o.session.tiles, i + 1);
    var st1 := GamePointerUp(s1, i, target);
    if i + 1 == |s.tiles| {
      assert AllPlaced(o.session.tiles);
    } else {
      assert st1.session == o.session;
      GamePlaceFromWins(st1.session, i + 1);
    }
  }

  /** A fifty-piece game of game.js (also what a zero level gives): a 5x10
      grid of fifty pieces, and dropping every piece on its target wins
      with fifty pieces placed and the clock stopped. */
  lemma FiftyPieceGame(level: int, measured: nat)
    requires level == 0 || level == 50
    ensures var s := GameStart(level, measured, 0);
      && s.dims == Dims(5, 10) && |s.tiles| == 50
      && var st := GamePlaceFrom(s, 0);
        && st.win.Some? && st.win.value.pieces == 50
        && st.session.placedCount == 50 && !st.session.timerRunning
  {
    var s := GameStart(level, measured, 0);
    assert s.pieceCount == 50;
    OfferedCounts();
    assert s.dims == Dims(5, 10);
    assert forall j :: 0 <= j < |s.tiles| ==> (s.tiles[j].placed <==> j < 0) by {
      forall j | 0 <= j < |s.tiles| ensures !s.tiles[j].placed {
        assert Fresh(true, s.tiles[j]);
      }
    }
    GamePlaceFromWins(s, 0);
  }
}

=== FILE: filepath.dfy ===
/** game.js `normalizeFilePath`: turns the file name a thumbnail carries
    into the address the image is loaded from. A missing value is `None`
    (JavaScript's `null` or `undefined`). */
module FilePath {
  import opened Wrappers

  /** `IMAGE_FOLDER`. */
  const ImageFolder: string := "images/"

  predicate HasPrefix(prefix: string, s: string)
  {
    |prefix| <= |s| && s[..|prefix|] == prefix
  }

  /** Matches `/^https?:\/\//` or starts with `/`: an address used as given. */
  predicate IsAddress(s: string)
  {
    HasPrefix("http://", s) || HasPrefix("https://", s) || HasPrefix("/", s)
  }

  /** Already names a file inside the image folder, or is an address. */
  predicate IsResolved(s: string)
  {
    IsAddress(s) || HasPrefix(ImageFolder, s)
  }

  function Normalize(path: Option<string>): (r: Option<string>)
    ensures r.None? <==> path.None? || path.value == ""
    ensures r.Some? ==> IsResolved(r.value) && |r.value| > 0
    ensures r.Some? && IsResolved(path.value) ==> r == path
    ensures r.Some? && !IsResolved(path.value) ==>
      HasPrefix(ImageFolder, r.value) && r.value[|ImageFolder|..] == path.value
  {
    if path.None? || path.value == "" then None
    else if IsAddress(path.value) then path
    else if HasPrefix(ImageFolder, path.value) then path
    else
      assert (ImageFolder + path.value)[..|ImageFolder|] == ImageFolder;
      Some(ImageFolder + path.value)
  }

  /** Normalising twice gives what normalising once gives. */
  lemma NormalizeIdempotent(path: Option<string>)
    ensures Normalize(Normalize(path)) == Normalize(path)
  {
  }

  /** Concrete cases of game.js's `normalizeFilePath`: a bare file name
      gains the folder, and addresses and folder paths are kept. */
  lemma NormalizeExamples()
    ensures Normalize(Some("photo.jpg")) == Some("images/photo.jpg")
    ensures Normalize(Some("images/photo.jpg")) == Some("images/photo.jpg")
    ensures Normalize(Some("https://x.org/a.jpg")) == Some("https://x.org/a.jpg")
    ensures Normalize(Some("/a.jpg")) == Some("/a.jpg")
    ensures Normalize(Some("")) == None && Normalize(None) == None
  {
    var f := "photo.jpg";
    assert f[0] == 'p';
    assert f[..7][0] == 'p' && f[..8][0] == 'p' && f[..1][0] == 'p';
    assert !HasPrefix("http://", f) && !HasPrefix("https://", f) && !HasPrefix("/", f);
    assert !HasPrefix(ImageFolder, f);
    assert ImageFolder + f == "images/photo.jpg";
    assert HasPrefix(ImageFolder, "images/photo.jpg");
    assert HasPrefix("https://", "https://x.org/a.jpg");
    assert HasPrefix("/", "/a.jpg");
  }
}

=== FILE: grid.dfy ===
/** Grid partition: how a requested piece count becomes a `rows x cols` grid,
    and how big each tile is on a square board of a given pixel size.

    The two scripts of the game choose the grid differently: `script.js`
    scans candidate row counts upward from 1 and keeps the pair whose
    `cols - rows` is smallest, while `game.js` scans downward from
    `floor(sqrt n)` and returns the first divisor it meets. Both are
    modelled here and proved to agree on every positive count. The
    floating-point test `r <= Math.sqrt(n)` is written `r * r <= n`. */
module Grid {
  import opened Wrappers
  import opened Arith

  /** A grid shape, as the pair `[rows, cols]` the scripts return. */
  datatype Dims = Dims(rows: int, cols: int)

  /** The pixel size of one tile. */
  datatype Size = Size(w: nat, h: nat)

  predicate Divides(k: int, n: int)
    requires k >= 1
  {
    n % k == 0
  }

  /** `Math.floor(Math.sqrt(n))` on a natural number. */
  function ISqrt(n: nat): (s: nat)
    ensures s * s <= n < (s + 1) * (s + 1)
  {
    if n == 0 then 0
    else
      var t := ISqrt(n - 1);
      if (t + 1) * (t + 1) <= n then t + 1 else t
  }

  /** `Math.ceil(n / d)` for a non-negative numerator. */
  function CeilDiv(n: nat, d: nat): (q: nat)
    requires d >= 1
    ensures q * d >= n
    ensures (q - 1) * d < n || q == 0
  {
    (n + d - 1) / d
  }

  /** The grid both scripts intend: `rows` is the largest divisor of `n`
      whose square does not exceed `n`, and `cols` is the matching
      co-divisor. */
  ghost predicate IsBestPair(n: int, d: Dims)
  {
    && 1 <= d.rows
    && d.rows * d.rows <= n
    && d.rows * d.cols == n
    && forall k :: d.rows < k && k * k <= n ==> !Divides(k, n)
  }

  // ---------------------------------------------------------------------
  // script.js: upward scan keeping the pair with the smallest difference
  // ---------------------------------------------------------------------

  /** What the upward scan has established before it looks at `r`. */
  ghost predicate ScanUpInv(n: int, r: int, best: Dims)
  {
    && 1 <= best.rows
    && best.rows * best.rows <= n
    && best.rows * best.cols == n
    && (best.rows == 1 || best.rows < r)
    && forall k :: best.rows < k < r ==> !Divides(k, n)
  }

  /** One iteration per `r` while `r * r <= n`; a divisor `r` replaces
      `best` only when `n / r - r` is strictly smaller. */
  function ScanUp(n: int, r: int, best: Dims): (d: Dims)
    requires r >= 1
    ensures n >= 1 && ScanUpInv(n, r, best) ==> IsBestPair(n, d)
    decreases if r * r <= n then n - r + 1 else 0
  {
    if r * r <= n then
      assert r <= r * r;
      var next :=
        if n % r == 0 && n / r - r < best.cols - best.rows then Dims(r, n / r)
        else best;
      assert n >= 1 && ScanUpInv(n, r, best) ==> ScanUpInv(n, r + 1, next) by {
        if n >= 1 && ScanUpInv(n, r, best) {
          ScanUpStep(n, r, best);
        }
      }
      ScanUp(n, r + 1, next)
    else
      assert n >= 1 && ScanUpInv(n, r, best) ==> IsBestPair(n, best) by {
        if n >= 1 && ScanUpInv(n, r, best) {
          forall k | best.rows < k && k * k <= n
            ensures !Divides(k, n)
          {
            if k >= r { SquareMono(r, k); }
          }
        }
      }
      best
  }

  /** The `factorPair` of script.js; `n <= 0` skips the loop and yields `[1, n]`. */
  function ScriptFactorPair(n: int): (d: Dims)
    ensures n < 1 ==> d == Dims(1, n)
  {
    ScanUp(n, 1, Dims(1, n))
  }

  // ---------------------------------------------------------------------
  // game.js: downward scan from floor(sqrt n), with a fallback
  // ---------------------------------------------------------------------

  /** `for (r = start; r >= 1; r--) if (n % r === 0) return r`. */
  function ScanDown(n: int, r: int): (j: Option<int>)
    ensures j.Some? ==>
      && 1 <= j.value <= r && Divides(j.value, n)
      && forall k :: j.value < k <= r ==> !Divides(k, n)
    decreases r
  {
    if r < 1 then None
    else if n % r == 0 then Some(r)
    else ScanDown(n, r - 1)
  }

  /** The `factorPair` of game.js. A non-positive count makes the square
      root or the fallback division `NaN`, which is `None` here. */
  function GameFactorPair(n: int): (d: Option<Dims>)
    ensures d.Some? <==> n >= 1
    ensures d.Some? ==> d.value.rows >= 1 && d.value.rows * d.value.cols >= n
  {
    if n < 1 then None
    else
      var s := ISqrt(n);
      match ScanDown(n, s)
      case Some(r) =>
        assert r >= 1 && n % r == 0 by { ScanDownSome(n, s); }
        DivExact(n, r);
        Some(Dims(r, n / r))
      case None => Some(Dims(s, CeilDiv(n, s)))
  }

  // ---------------------------------------------------------------------
  // Lemmas
  // ---------------------------------------------------------------------

  lemma ScanUpStep(n: int, r: int, best: Dims)
    requires n >= 1 && r >= 1 && r * r <= n
    requires ScanUpInv(n, r, best)
    ensures ScanUpInv(n, r + 1,
      if n % r == 0 && n / r - r < best.cols - best.rows then Dims(r, n / r) else best)
  {
    if n % r == 0 {
      var c := n / r;
      assert r * c == n;
      if best.rows < r {
        FewerColumns(best.rows, best.cols, r, c);
      }
    }
  }

  /** From any start point of at least 1 the downward scan finds a divisor
      (at the latest, 1). */
  lemma {:induction false} ScanDownSome(n: int, r: int)
    ensures r >= 1 ==> ScanDown(n, r).Some?
    decreases r
  {
    if r >= 1 && n % r != 0 {
      ScanDownSome(n, r - 1);
    }
  }

  /** script.js's `factorPair` returns the intended grid for every positive count. */
  lemma ScriptFactorPairBest(n: int)
    requires n >= 1
    ensures IsBestPair(n, ScriptFactorPair(n))
  {
    assert ScanUpInv(n, 1, Dims(1, n));
  }

  /** game.js's `factorPair` finds a divisor for every positive count, so
      its approximate fallback is never taken, and the grid is the intended one. */
  lemma GameFactorPairBest(n: int)
    requires n >= 1
    ensures ScanDown(n, ISqrt(n)).Some?
    ensures GameFactorPair(n).Some? && IsBestPair(n, GameFactorPair(n).value)
  {
    var s := ISqrt(n);
    ScanDownSome(n, s);
    var r := ScanDown(n, s).value;
    DivExact(n, r);
    SquareMono(r, s);
    forall k | r < k && k * k <= n
      ensures !Divides(k, n)
    {
      if k > s { SquareMono(s + 1, k); }
    }
  }

  /** There is only one intended grid for a count. */
  lemma BestPairUnique(n: int, d1: Dims, d2: Dims)
    requires IsBestPair(n, d1) && IsBestPair(n, d2)
    ensures d1 == d2
  {
    assert Divides(d1.rows, n) by { DivOfProduct(d1.rows, d1.cols); }
    assert Divides(d2.rows, n) by { DivOfProduct(d2.rows, d2.cols); }
    assert d1.rows == d2.rows;
    Cancel(d1.rows, d1.cols, d2.cols);
  }

  /** The two scripts choose the same grid for every positive count. */
  lemma FactorPairsAgree(n: int)
    requires n >= 1
    ensures GameFactorPair(n) == Some(ScriptFactorPair(n))
  {
    ScriptFactorPairBest(n);
    GameFactorPairBest(n);
    BestPairUnique(n, ScriptFactorPair(n), GameFactorPair(n).value);
  }

  /** The intended grid is exact, has no more rows than columns, and has the
      smallest `cols - rows` among all factorisations `a * b == n` with `a <= b`. */
  lemma BestPairMinimal(n: int, d: Dims, a: int, b: int)
    requires IsBestPair(n, d)
    requires 1 <= a <= b && a * b == n
    ensures d.rows <= d.cols
    ensures d.cols - d.rows <= b - a
  {
    MulLeCancel(d.rows, d.rows, d.cols);
    MulMono(a, b, a);
    assert Divides(a, n) by { DivOfProduct(a, b); }
    assert a <= d.rows;
    MulMono(a, d.rows, b);
    MulLeCancel(d.rows, d.cols, b);
  }

  /** The counts the game offers (30, 50 and 80 pieces) get 5x6, 5x10 and
      8x10 grids from either script. */
  lemma OfferedCounts()
    ensures ScriptFactorPair(30) == Dims(5, 6) && GameFactorPair(30) == Some(Dims(5, 6))
    ensures ScriptFactorPair(50) == Dims(5, 10) && GameFactorPair(50) == Some(Dims(5, 10))
    ensures ScriptFactorPair(80) == Dims(8, 10) && GameFactorPair(80) == Some(Dims(8, 10))
  {
    forall k | k > 5 ensures k * k >= 36 { SquareMono(6, k); }
    forall k | k > 7 ensures k * k >= 64 { SquareMono(8, k); }
    forall k | k > 8 ensures k * k >= 81 { SquareMono(9, k); }
    assert IsBestPair(30, Dims(5, 6));
    assert IsBestPair(50, Dims(5, 10)) by {
      assert !Divides(6, 50) && !Divides(7, 50);
    }
    assert IsBestPair(80, Dims(8, 10));
    ScriptFactorPairBest(30);
    ScriptFactorPairBest(50);
    ScriptFactorPairBest(80);
    BestPairUnique(30, ScriptFactorPair(30), Dims(5, 6));
    BestPairUnique(50, ScriptFactorPair(50), Dims(5, 10));
    BestPairUnique(80, ScriptFactorPair(80), Dims(8, 10));
    FactorPairsAgree(30);
    FactorPairsAgree(50);
    FactorPairsAgree(80);
  }

  // ---------------------------------------------------------------------
  // Tile size
  // ---------------------------------------------------------------------

  /** `pieceW = Math.floor(boardSize / cols)`, `pieceH = Math.floor(boardSize / rows)`:
      the largest tile that lets the grid fit on the board. */
  function PieceSize(boardSize: nat, d: Dims): (sz: Size)
    requires d.rows >= 1 && d.cols >= 1
    ensures sz.w * d.cols <= boardSize < (sz.w + 1) * d.cols
    ensures sz.h * d.rows <= boardSize < (sz.h + 1) * d.rows
  {
    Size(boardSize / d.cols, boardSize / d.rows)
  }
}

=== FILE: snap.dfy ===
/** Snap detection. The scripts compare `Math.hypot` of the centre-to-
    target-centre offset with `Math.max(pieceW, pieceH) * 0.35`. Here the
    test is exact: with `m = max(pieceW, pieceH)`, a drop snaps when
    `400 * (dx*dx + dy*dy) <= 49 * m*m`, and `HypotTest` proves this is the
    same comparison carried out on the real distance. */
module Snap {
  import opened Arith
  import opened Grid
  import opened Tiles

  function Max(a: nat, b: nat): (m: nat)
    ensures m >= a && m >= b && (m == a || m == b)
  {
    if a < b then b else a
  }

  /** The offset `(dx, dy)` is within 35% of `m` (boundary included). */
  predicate WithinReach(dx: int, dy: int, m: nat): (b: bool)
    ensures dx == 0 && dy == 0 ==> b
    ensures b ==> -7 * m <= 20 * dx <= 7 * m && -7 * m <= 20 * dy <= 7 * m
  {
    AxisBound(dx, dy, m);
    AxisBound(dy, dx, m);
    400 * (dx * dx + dy * dy) <= 49 * (m * m)
  }

  /** A piece of size `sz` dropped at `p` snaps onto `target`. */
  predicate Snaps(sz: Size, target: Pos, p: Pos): (b: bool)
    ensures b ==>
      && -7 * Max(sz.w, sz.h) <= 20 * (p.left - target.left) <= 7 * Max(sz.w, sz.h)
      && -7 * Max(sz.w, sz.h) <= 20 * (p.top - target.top) <= 7 * Max(sz.w, sz.h)
  {
    WithinReach(p.left - target.left, p.top - target.top, Max(sz.w, sz.h))
  }

  /** `(left + extent/2) - (targetLeft + extent/2)`: the offset between the
      piece's centre and its target's centre along one axis. */
  function CentreOffset(pos: int, target: int, extent: nat): (o: real)
    ensures o == (pos - target) as real
  {
    (pos as real + extent as real / 2.0) - (target as real + extent as real / 2.0)
  }

  function Shift(p: Pos, o: Pos): Pos
  {
    Pos(p.left + o.left, p.top + o.top)
  }

  // ---------------------------------------------------------------------
  // Lemmas
  // ---------------------------------------------------------------------

  /** Within reach, neither axis alone is off by more than 35% of `m`. */
  lemma AxisBound(a: int, b: int, m: nat)
    ensures 400 * (a * a + b * b) <= 49 * (m * m) ==> -7 * m <= 20 * a <= 7 * m
  {
    if 400 * (a * a + b * b) <= 49 * (m * m) {
      var x := if a >= 0 then 20 * a else -20 * a;
      assert x * x == 400 * (a * a);
      assert b * b >= 0;
      assert x * x <= (7 * m) * (7 * m);
      SquareLeInv(x, 7 * m);
    }
  }

  lemma SquareLeInv(x: int, y: int)
    requires 0 <= x && 0 <= y && x * x <= y * y
    ensures x <= y
  {
    if y < x {
      SquareMono(y + 1, x);
    }
  }

  lemma SquareLeIff(a: real, b: real)
    requires a >= 0.0 && b >= 0.0
    ensures a <= b <==> a * a <= b * b
  {
    if a <= b {
      assert a * a <= a * b <= b * b;
    } else {
      SquareLt(b, a);
    }
  }

  lemma SquareLt(b: real, a: real)
    requires 0.0 <= b < a
    ensures b * b < a * a
  {
    var d := a - b;
    assert a * a == b * b + d * (a + b);
    assert d * (a + b) > 0.0;
  }

  /** The integer test agrees with game.js's and script.js's floating comparison
      `Math.hypot(centerDX, centerDY) <= Math.max(pieceW, pieceH) * 0.35`
      whenever `dist` is the exact Euclidean distance between the centres. */
  lemma HypotTest(sz: Size, target: Pos, p: Pos, dist: real)
    requires dist >= 0.0
    requires dist * dist ==
      CentreOffset(p.left, target.left, sz.w) * CentreOffset(p.left, target.left, sz.w)
      + CentreOffset(p.top, target.top, sz.h) * CentreOffset(p.top, target.top, sz.h)
    ensures dist <= (Max(sz.w, sz.h) as real) * 0.35 <==> Snaps(sz, target, p)
  {
    var dx := p.left - target.left;
    var dy := p.top - target.top;
    var m := Max(sz.w, sz.h);
    var t := (m as real) * 0.35;
    SquareLeIff(dist, t);
    assert dist * dist == (dx * dx + dy * dy) as real;
    assert t * t == 0.1225 * (m * m) as real;
    assert (400 * (dx * dx + dy * dy)) as real == 400.0 * (dx * dx + dy * dy) as real;
    assert (49 * (m * m)) as real == 49.0 * (m * m) as real;
  }

  /** A drop exactly on the target always snaps. */
  lemma DropOnTargetSnaps(sz: Size, target: Pos)
    ensures Snaps(sz, target, target)
  {
  }

  /** The decision depends only on the offset from the target: moving both
      the drop point and the target by the same amount (script.js measures
      both from the board's wrapper, not the board) changes nothing. */
  lemma SnapsTranslationInvariant(sz: Size, target: Pos, p: Pos, o: Pos)
    ensures Snaps(sz, Shift(target, o), Shift(p, o)) == Snaps(sz, target, p)
  {
  }
}

=== FILE: tiles.dfy ===
/** Tile construction: the row-major list of pieces `buildPieces` creates,
    each with its grid cell, its target offset on the board and its
    placement flag. Positions are offsets from the board's top-left corner. */
module Tiles {
  import opened Wrappers
  import opened Arith
  import opened Grid

  /** A `(left, top)` pixel offset. */
  datatype Pos = Pos(left: int, top: int)

  /** One puzzle piece. `pos` is `None` while the piece has no explicit
      offset yet; `rotation` is the tilt (in degrees) a scatter gives it. */
  datatype Tile = Tile(
    idx: nat,
    row: nat,
    col: nat,
    target: Pos,
    pos: Option<Pos>,
    rotation: real,
    placed: bool)

  /** The offset where the piece of cell `(row, col)` belongs: `(c*pieceW, r*pieceH)`. */
  function Target(row: nat, col: nat, sz: Size): (p: Pos)
    ensures p.left >= 0 && p.top >= 0
    ensures sz.w >= 1 ==> p.left / sz.w == col
    ensures sz.h >= 1 ==> p.top / sz.h == row
  {
    DivOfMultiple(col, sz.w);
    DivOfMultiple(row, sz.h);
    Pos(col * sz.w, row * sz.h)
  }

  /** Point `(x, y)` lies inside the target rectangle of cell `(row, col)`. */
  predicate InCell(x: int, y: int, row: nat, col: nat, sz: Size)
  {
    var t := Target(row, col, sz);
    t.left <= x < t.left + sz.w && t.top <= y < t.top + sz.h
  }

  /** The geometry a piece gets when it is built for grid `d`: its cell lies
      in the grid, its index is the row-major index of that cell, and its
      target is the cell's offset. */
  predicate Fits(d: Dims, sz: Size, t: Tile)
  {
    && t.row < d.rows && t.col < d.cols
    && t.idx == t.row * d.cols + t.col
    && t.target == Target(t.row, t.col, sz)
  }

  /** A freshly built piece: not placed, not rotated, and either without an
      offset (script.js) or sitting on its target (game.js). */
  predicate Fresh(atTarget: bool, t: Tile)
  {
    && !t.placed
    && t.rotation == 0.0
    && t.pos == (if atTarget then Some(t.target) else None)
  }

  function NewTile(d: Dims, sz: Size, atTarget: bool, r: nat, c: nat): Tile
    requires c < d.cols
  {
    var t := Target(r, c, sz);
    Tile(r * d.cols + c, r, c, t, if atTarget then Some(t) else None, 0.0, false)
  }

  /** The inner loop `for (c = ...; c < cols; c++) { if (idx >= total) break; ... }`.
      Row `r` from column `c` on holds the cells `c, c+1, ...` up to the end
      of the row or up to index `total`, whichever comes first. */
  function BuildRow(d: Dims, sz: Size, total: int, atTarget: bool, r: nat, c: nat): (s: seq<Tile>)
    ensures c <= d.cols ==> |s| == Clamp(Min(d.cols, total - r * d.cols) - c)
    ensures |s| == 0 || c + |s| <= d.cols
    ensures forall i :: 0 <= i < |s| ==> s[i] == NewTile(d, sz, atTarget, r, c + i)
    decreases d.cols - c
  {
    if c >= d.cols then []
    else if r * d.cols + c >= total then []
    else
      var rest := BuildRow(d, sz, total, atTarget, r, c + 1);
      var s := [NewTile(d, sz, atTarget, r, c)] + rest;
      assert forall i :: 0 <= i < |s| ==> s[i] == NewTile(d, sz, atTarget, r, c + i) by {
        forall i | 0 < i < |s|
          ensures s[i] == NewTile(d, sz, atTarget, r, c + i)
        {
          assert s[i] == rest[i - 1];
        }
      }
      s
  }

  /** The outer loop `for (r = ...; r < rows; r++)`. The `break` above only
      leaves the current row; later rows run their inner loop again. Rows
      `r, r+1, ...` hold, in order, the cells with row-major index
      `r*cols, r*cols+1, ...` below `min(total, rows*cols)`. */
  function BuildRows(d: Dims, sz: Size, total: int, atTarget: bool, r: nat): (s: seq<Tile>)
    ensures d.cols >= 1 && r <= d.rows ==>
      && |s| == Clamp(Min(total, d.rows * d.cols) - r * d.cols)
      && forall i :: 0 <= i < |s| ==>
        s[i].idx == r * d.cols + i && Fits(d, sz, s[i]) && Fresh(atTarget, s[i])
    decreases d.rows - r
  {
    if r >= d.rows then []
    else
      var row := BuildRow(d, sz, total, atTarget, r, 0);
      var rest := BuildRows(d, sz, total, atTarget, r + 1);
      if d.cols >= 1 then
        RowsStep(d, sz, total, atTarget, r, row, rest);
        row + rest
      else row + rest
  }

  /** `Math.min(limit || totalSlots, totalSlots)`: a zero limit means "no limit". */
  function PieceLimit(limit: int, slots: int): (n: int)
    ensures n <= slots
    ensures limit == 0 ==> n == slots
    ensures limit != 0 ==> n <= limit && (n == limit || n == slots)
  {
    var l := if limit == 0 then slots else limit;
    if l < slots then l else slots
  }

  /** script.js `buildPieces(rows, cols)`: every cell gets a piece, with no
      offset until the first scatter. */
  function ScriptBuildPieces(d: Dims, sz: Size): (tiles: seq<Tile>)
    requires d.rows >= 1 && d.cols >= 1
    ensures |tiles| == d.rows * d.cols
    ensures forall i :: 0 <= i < |tiles| ==>
      tiles[i].idx == i && Fits(d, sz, tiles[i]) && Fresh(false, tiles[i])
  {
    BuildRows(d, sz, d.rows * d.cols, false, 0)
  }

  /** game.js `buildPieces(rows, cols, limit)`: the first `min(limit || rows*cols,
      rows*cols)` cells in row-major order get a piece, each placed on its target. */
  function GameBuildPieces(d: Dims, sz: Size, limit: int): (tiles: seq<Tile>)
    requires d.rows >= 1 && d.cols >= 1
    ensures |tiles| == Clamp(PieceLimit(limit, d.rows * d.cols))
    ensures forall i :: 0 <= i < |tiles| ==>
      tiles[i].idx == i && Fits(d, sz, tiles[i]) && Fresh(true, tiles[i])
  {
    var total := PieceLimit(limit, d.rows * d.cols);
    BuildRows(d, sz, total, true, 0)
  }

  function Clamp(x: int): nat
  {
    if x < 0 then 0 else x
  }

  function Min(a: int, b: int): int
  {
    if a < b then a else b
  }

  // ---------------------------------------------------------------------
  // Lemmas
  // ---------------------------------------------------------------------

  /** One step of the outer loop: row `r` followed by the later rows. */
  lemma RowsStep(d: Dims, sz: Size, total: int, atTarget: bool, r: nat, row: seq<Tile>, rest: seq<Tile>)
    requires d.cols >= 1 && r < d.rows
    requires |row| == Clamp(Min(d.cols, total - r * d.cols))
    requires forall i :: 0 <= i < |row| ==> row[i] == NewTile(d, sz, atTarget, r, i)
    requires |rest| == Clamp(Min(total, d.rows * d.cols) - (r + 1) * d.cols)
    requires forall i :: 0 <= i < |rest| ==>
      rest[i].idx == (r + 1) * d.cols + i && Fits(d, sz, rest[i]) && Fresh(atTarget, rest[i])
    ensures |row + rest| == Clamp(Min(total, d.rows * d.cols) - r * d.cols)
    ensures forall i :: 0 <= i < |row + rest| ==>
      (row + rest)[i].idx == r * d.cols + i && Fits(d, sz, (row + rest)[i]) && Fresh(atTarget, (row + rest)[i])
  {
    assert (r + 1) * d.cols == r * d.cols + d.cols;
    MulMono(r + 1, d.rows, d.cols);
    RowsLength(total, r * d.cols, d.cols, d.rows * d.cols, |row|, |rest|);
    RowThenRest(d, sz, atTarget, r, row, rest);
  }

  /** One row of fresh pieces followed by the later rows keeps the
      row-major numbering. */
  lemma RowThenRest(d: Dims, sz: Size, atTarget: bool, r: nat, row: seq<Tile>, rest: seq<Tile>)
    requires r < d.rows && |row| <= d.cols
    requires forall i :: 0 <= i < |row| ==> row[i] == NewTile(d, sz, atTarget, r, i)
    requires |rest| > 0 ==> |row| == d.cols
    requires forall i :: 0 <= i < |rest| ==>
      rest[i].idx == (r + 1) * d.cols + i && Fits(d, sz, rest[i]) && Fresh(atTarget, rest[i])
    ensures forall i :: 0 <= i < |row + rest| ==>
      && (row + rest)[i].idx == r * d.cols + i
      && Fits(d, sz, (row + rest)[i]) && Fresh(atTarget, (row + rest)[i])
  {
    var s := row + rest;
    assert (r + 1) * d.cols == r * d.cols + d.cols;
    forall i | 0 <= i < |s|
      ensures s[i].idx == r * d.cols + i && Fits(d, sz, s[i]) && Fresh(atTarget, s[i])
    {
      if i < |row| {
        assert s[i] == row[i];
        NewTileShape(d, sz, atTarget, r, i);
      } else {
        assert s[i] == rest[i - |row|];
      }
    }
  }

  lemma NewTileShape(d: Dims, sz: Size, atTarget: bool, r: nat, c: nat)
    requires r < d.rows && c < d.cols
    ensures NewTile(d, sz, atTarget, r, c).idx == r * d.cols + c
    ensures Fits(d, sz, NewTile(d, sz, atTarget, r, c)) && Fresh(atTarget, NewTile(d, sz, atTarget, r, c))
  {
  }

  /** The length bookkeeping of one outer-loop step, with `base = r*cols`
      and `all = rows*cols`. */
  lemma RowsLength(total: int, base: int, cols: int, all: int, row: int, rest: int)
    requires cols >= 1 && base + cols <= all
    requires row == Clamp(Min(cols, total - base))
    requires rest == Clamp(Min(total, all) - (base + cols))
    ensures row + rest == Clamp(Min(total, all) - base)
    ensures rest > 0 ==> row == cols
  {
  }

  /** With a positive limit no larger than the grid, game.js builds exactly
      `limit` pieces; with the exact grid of a positive count both scripts
      build one piece per cell. */
  lemma GameBuildCount(d: Dims, sz: Size, limit: int)
    requires d.rows >= 1 && d.cols >= 1
    requires 1 <= limit <= d.rows * d.cols
    ensures |GameBuildPieces(d, sz, limit)| == limit
  {
  }

  /** The target rectangles tile the board: a board point lies in exactly
      one cell's rectangle, namely the cell `(y / pieceH, x / pieceW)`, and
      that cell belongs to the grid. */
  lemma TargetsTileBoard(d: Dims, sz: Size, x: int, y: int)
    requires d.rows >= 1 && d.cols >= 1 && sz.w >= 1 && sz.h >= 1
    requires 0 <= x < sz.w * d.cols && 0 <= y < sz.h * d.rows
    ensures 0 <= y / sz.h < d.rows && 0 <= x / sz.w < d.cols
    ensures forall r: nat, c: nat :: InCell(x, y, r, c, sz) <==> r == y / sz.h && c == x / sz.w
  {
    DivBand(x, sz.w, x / sz.w);
    DivBand(y, sz.h, y / sz.h);
    if x / sz.w >= d.cols {
      MulMono(d.cols, x / sz.w, sz.w);
    }
    if y / sz.h >= d.rows {
      MulMono(d.rows, y / sz.h, sz.h);
    }
    forall r: nat, c: nat
      ensures InCell(x, y, r, c, sz) <==> r == y / sz.h && c == x / sz.w
    {
      DivBand(x, sz.w, c);
      DivBand(y, sz.h, r);
    }
  }

  /** Every cell of the grid lies within the `pieceW*cols x pieceH*rows` board. */
  lemma CellInsideBoard(d: Dims, sz: Size, r: nat, c: nat, x: int, y: int)
    requires r < d.rows && c < d.cols
    requires InCell(x, y, r, c, sz)
    ensures 0 <= x < sz.w * d.cols && 0 <= y < sz.h * d.rows
  {
    MulMono(c + 1, d.cols, sz.w);
    MulMono(r + 1, d.rows, sz.h);
  }
}

=== FILE: wrappers.dfy ===
/** The optional value used wherever the scripts work with `null`, `undefined`
    or `NaN` in place of a real result. */
module Wrappers {

  datatype Option<+T> = None | Some(value: T)

}
